=== FILE: README.md ===
# PrePostChecker batch orchestrator — a Dafny model

PrePostChecker logs in to a list of Cisco IOS-XE devices one after another,
captures the output of a list of show commands and the running configuration
of each device, and writes both to timestamped files under `Logs/Pre/` or
`Logs/Post/`. A device that rejects the credentials or does not answer is
skipped and the batch goes on.

This project models the batch loop `prepostchecks` and the pure parts of
`get_inputs` as pure Dafny functions and proves what they promise:

- `options.dfy` — `Option`.
- `chars.dfy` (module `Chars`) — the decimal-digit class shared by the stamp
  format and the port parser.
- `inputs.dfy` (module `Inputs`) — `str.lower()`/`str.title()` on ASCII, the
  run-mode prompt loop, Python `int()` syntax with its default 4300-digit limit, the SSH port prompt loop as
  written and as intended, and the whole answer stream of `get_inputs`, as
  written (`GetInputs`) and with the corrected port loop (`GetInputsCorrected`).
- `timestamp.dfy` (module `Timestamp`) — the `%m%d%Y-%H%M` stamp and its parser.
- `naming.dfy` (module `Naming`) — artifact file names and POSIX `os.path.join`.
- `capture.dfy` (module `Capture`) — hostname from the prompt, the delimiter
  line, the log buffer, and the accumulation loop as a method.
- `filestore.dfy` (module `FileStore`) — the output directory as a
  `map<string, string>` changed by overwriting writes.
- `checks.dfy` (module `Checks`) — one device's session and the batch loop.

The SSH transport is an oracle `Connection -> Outcome`: for the connection
parameters of a device (platform `cisco_xe`, host, username, password, port)
it answers `AuthFail`, `Unreachable`, or `Connected(prompt, respond)`, where
`respond` gives the device's answer to each command. The backup holds
`respond("show running")`. The wall clock is a parameter `clock: nat -> Stamp`
indexed by how many clock readings came before, so the log name uses reading
`k` and the backup name reading `k + 1` and the two may differ. `os.getcwd()`
is the parameter `cwd`. Printed progress lines become the events
`Connecting(host)`, `LoggedIn(hostname)`, `AuthSkipped`, `UnreachableSkipped`
and `Completed(hostname)`.

The model follows the code, including where it departs from what its prompts
and documentation suggest:

- the hostname is the prompt with every `#` removed, not only a trailing one;
- a blank SSH port answer is rejected rather than defaulted to 22 (see Findings);
- each file name takes its own clock reading, so the log and backup names of
  one device may carry different minutes;
- a hostname that begins with `/` makes `os.path.join` drop `<cwd>/Logs/<mode>`,
  so the files land at the bare file name (`Naming.ArtifactLocation`).

## Model

| member | source | states |
|---|---|---|
| Checks.PrePostChecks | prepostchecker.py:64-143 | The devices attempted, read off the "Connecting" events, are exactly the device list in order, and the final directory is the initial one with the loop's writes applied in order. |
| Checks.ConnectionFor | prepostchecker.py:81-87 | The connection parameters are platform "cisco_xe", the device as host, and the operator's username, password and port. |
| Checks.VisitDevice | prepostchecker.py:80-143 | One device yields exactly one "Connecting" event for itself; a failed login writes nothing and takes no clock reading; a live session writes exactly two files and takes two readings. |
| Checks.DeviceEvents | prepostchecker.py:89-143 | One device's events start with its "Connecting" event and hold no other; the last event is the authentication skip, the unreachable skip, or "Completed" exactly when the outcome is that failure or a live session. |
| Checks.Step | prepostchecker.py:80-143 | One loop pass never removes a file; only a device that logs in changes files or reads the clock (twice); earlier events are kept and at least two are added. |
| Checks.Batch | prepostchecker.py:80-143 | The loop never removes a file, never decreases the count of clock readings taken, keeps earlier events and adds at least two per device. |
| Checks.DeviceEventsAttempted | prepostchecker.py:89-143 | The event block of one device holds exactly one "Connecting" event, naming that device, whatever the outcome. |
| Checks.SessionWrites | prepostchecker.py:101-129 | A live session writes two files whose paths always differ. |
| Checks.BatchAttemptsInOrder | prepostchecker.py:80-91 | Every device is attempted exactly once and in list order: the new "Connecting" hosts are the device list. |
| Checks.BatchAppend | prepostchecker.py:80-143 | Processing a list in two parts is the same as processing it whole: devices are handled strictly one after another. |
| Checks.BatchStore | prepostchecker.py:80-129 | The directory after the loop is the directory before with all writes applied in the order made. |
| Checks.FailedDeviceSkipped | prepostchecker.py:135-143 | A device whose login is rejected or that is unreachable adds no file, takes no clock reading and emits "Connecting" then the matching skip event; the rest of the batch then runs from that state, and its files and clock readings are exactly those of the batch with the device left out of the list. |
| Checks.FailedStep | prepostchecker.py:135-143 | The pass of a failed device leaves files and clock readings as they were and adds "Connecting" and the matching skip event. |
| Checks.BatchIgnoresEvents | prepostchecker.py:80-143 | The files and clock readings a batch produces do not depend on the progress events reported before it. |
| Checks.StepConnectedFiles | prepostchecker.py:117-129 | A live session overwrites the log path with the log buffer and then the backup path with the running configuration. |
| Checks.SuccessfulDeviceArtifacts | prepostchecker.py:96-129 | A live session writes exactly two distinct paths (created, or overwritten when they already exist), named from the prompt-derived hostname and two consecutive clock readings; the log holds the delimited command outputs, the backup the running configuration, and every other path is unchanged. |
| Checks.SuccessfulDeviceEvents | prepostchecker.py:89-133 | A live session reports connecting, logged in and completed with the hostname, and takes two clock readings. |
| Checks.BatchWritesOneMinute | prepostchecker.py:101-129 | With every clock reading in one minute, the files written do not depend on how many readings came before. |
| Checks.RerunSameMinute | prepostchecker.py:101-129 | Re-running a batch within the same minute, against devices that end their sessions the same way and show the same prompts but may answer commands differently, leaves exactly the files the second run alone would leave: every artifact of the first run is overwritten, none is added or kept. |
| Checks.RerunIdentical | prepostchecker.py:101-129 | The identical batch run twice within one minute leaves the directory as one run does. |
| Checks.BatchWritesSamePaths | prepostchecker.py:96-129 | Sessions that end the same way with the same prompts write to the same set of paths, whatever the devices answer. |
| Checks.VisitSamePaths | prepostchecker.py:96-129 | For one device, two such sessions take the same clock readings and write the same paths. |
| Checks.EndToEndScenario | prepostchecker.py:64-143 | Devices 10.0.0.1 (prompt "R1#") and 10.0.0.2 (rejects login) with one command: R1 gets `R1_PreCheckLogs-<ts>.txt` holding the delimiter and output of "show version" and `R1_BackupConfig-<ts>.cfg`; 10.0.0.2 only leaves an authentication skip event. |
| Checks.ScenarioFirstDevice | prepostchecker.py:93-133 | In that scenario the first device writes its two files and reports R1 as logged in and completed. |
| Capture.Hostname | prepostchecker.py:96 | The hostname contains no '#', and a prompt without '#' is returned unchanged. |
| Capture.HostnameKeepsOthers | prepostchecker.py:96 | Every character other than '#' survives as often as it occurred; the length drops by the number of '#'s. |
| Capture.HostnameAppend | prepostchecker.py:96 | Removing '#' distributes over concatenation, so the other characters keep their order. |
| Capture.HostnameExamples | prepostchecker.py:96 | "R1#" gives "R1", and "a#b#" gives "ab" (not only a trailing '#' goes). |
| Capture.Stars | prepostchecker.py:111-112 | A run of stars whose length is the count, or zero for a negative count, as Python string repetition. |
| Capture.DelimiterShape | prepostchecker.py:111-112 | The delimiter is a newline, twenty stars, the command, stars up to a body of 100 characters (20 + length when the command is longer than 80), and a blank line. |
| Capture.Delimiter | prepostchecker.py:111-112 | The delimiter is 103 characters long (23 + the command length when the command is longer than 80), with the command starting after the newline and twenty stars. |
| Capture.LogBuffer | prepostchecker.py:109-113 | Each command adds at least its 103-character delimiter, so a non-empty command list never gives an empty log. |
| Capture.CaptureLogs | prepostchecker.py:109-113 | The accumulation loop computes the log buffer: one delimiter plus output per command, in order. |
| Capture.LogBufferAppend | prepostchecker.py:109-113 | The buffer of a concatenated command list is the concatenation of the two buffers. |
| Capture.LogBufferEntryAt | prepostchecker.py:109-113 | The i-th command's delimiter and output sit between the entries of the commands before and after it: no reordering, dropping or merging. |
| Capture.DuplicateCommandCapturedTwice | prepostchecker.py:110-113 | A command listed twice is captured twice. |
| FileStore.ApplyWrites | prepostchecker.py:117-129 | After the writes the directory holds the old paths plus every written path. |
| FileStore.ApplyWritesLookup | prepostchecker.py:117-129 | A written path holds the contents of its last write; an unwritten path is as before. |
| FileStore.ApplyWritesAppend | prepostchecker.py:117-129 | Writing one sequence and then another equals writing their concatenation. |
| FileStore.ApplyWritesCovered | prepostchecker.py:117-129 | Earlier writes whose paths are all written again later leave no trace. |
| FileStore.LastWritePaths | prepostchecker.py:117-129 | A path has a last write exactly when some write goes to it. |
| FileStore.ApplyWritesIdempotent | prepostchecker.py:117-129 | Repeating the same writes leaves the directory unchanged: files are overwritten, never duplicated. |
| Timestamp.Format | prepostchecker.py:101 | The stamp is 13 characters, digits except '-' at index 8, and parses back to the same reading. |
| Timestamp.FormatInjective | prepostchecker.py:123 | Two readings render alike exactly when they name the same minute. |
| Naming.Join | prepostchecker.py:103-104 | The joined path ends with its last component. |
| Naming.LogName | prepostchecker.py:101 | The log name is the hostname, then `_<mode>CheckLogs-`, then the stamp and ".txt"; the minute can be read back from the 13 characters before the extension. |
| Naming.BackupName | prepostchecker.py:123 | The backup name is the hostname, then `_BackupConfig-`, then the stamp and ".cfg"; the minute can be read back from the 13 characters before the extension. |
| Naming.LogPath | prepostchecker.py:103-104 | The log path ends with the log file name. |
| Naming.BackupPath | prepostchecker.py:124-125 | The backup path ends with the backup file name. |
| Naming.NamesAbsolute | prepostchecker.py:101-125 | A file name is an absolute path exactly when the hostname starting it begins with '/'. |
| Naming.ArtifactLocation | prepostchecker.py:101-125 | For a valid mode the directory is `cwd` (with a separator added unless it is empty or ends with one) followed by `Logs/<mode>`, and the files land there under their names, unless the hostname begins with '/', in which case the bare name is the path. |
| Naming.LogNameInjective | prepostchecker.py:101 | Log names are equal exactly when hostname and minute are equal. |
| Naming.BackupNameInjective | prepostchecker.py:123 | Backup names are equal exactly when hostname and minute are equal. |
| Naming.LogAndBackupDistinct | prepostchecker.py:101-125 | A log path never equals a backup path (".txt" against ".cfg"). |
| Naming.PathsDeterminedByHostAndMinute | prepostchecker.py:101-125 | For a valid mode ("Pre" or "Post") and hostnames that do not begin with '/', two artifact paths are equal exactly when hostname and minute agree, so a same-minute re-run overwrites. A hostname beginning with '/' is excluded because it can collide: "/x/Logs/Pre/R1" gives the same log path as "R1" under cwd "/x". |
| Naming.ModeDirUnderCwd | prepostchecker.py:103-104 | The run-mode directory is `Logs/<mode>` joined under the working directory, and for a valid mode it does not end with a separator. |
| Inputs.RunModeAcceptedIff | prepostchecker.py:53-55 | A run-mode line is accepted exactly when its lower-case form is "pre" or "post", and the kept value is then "Pre" or "Post" respectively. |
| Inputs.LowerOfTitle | prepostchecker.py:53-54 | Lower-casing the title-cased line equals lower-casing the line. |
| Inputs.TitleIgnoresCase | prepostchecker.py:53 | Title-casing gives the same result for every spelling of the same letters. |
| Inputs.FirstAccepted | prepostchecker.py:52-57 | The loop stops at the first accepted line; all earlier lines are rejected. |
| Inputs.ReadRunMode | prepostchecker.py:52-57 | The run mode is the title-cased form of the first accepted line, and so "Pre" or "Post"; none exactly when no line is accepted. |
| Inputs.ReadPortAsWritten | prepostchecker.py:39-49 | None exactly when no line parses as an integer; otherwise the kept port is the first line that `int()` accepts, unchanged: the default "22" is never chosen. |
| Inputs.ParseIndex | prepostchecker.py:39-49 | The loop as written stops at the first line `int()` accepts; every earlier line raises. |
| Inputs.BlankPortRejectedAsWritten | prepostchecker.py:41-45 | A blank port line is skipped like any invalid line; a lone blank line yields no port. |
| Inputs.PortIndex | prepostchecker.py:39-49 | The corrected loop stops at the first blank or integer line. |
| Inputs.ReadPort | prepostchecker.py:39-49 | The corrected port is the first blank-or-integer line, a blank line replaced by "22"; it always parses as an integer; none exactly when no line is blank or an integer. |
| Inputs.DefaultPortParses | prepostchecker.py:44 | The default "22" is itself a valid integer text. |
| Inputs.BlankPortDefaults | prepostchecker.py:43-45 | With the correction a blank line selects port "22". |
| Inputs.ReadPortAgreesWithoutBlank | prepostchecker.py:39-49 | Without blank lines the corrected loop and the loop as written agree. |
| Inputs.GetInputs | prepostchecker.py:25-61 | As written: the first line is the username; the port is what the as-written port loop keeps from the following lines; the run mode is read from the lines after that port line; none exactly when the lines run out in either loop. |
| Inputs.GetInputsCorrected | prepostchecker.py:25-61 | The same with the corrected port loop: the port is the corrected loop's result and the run mode is read after the line it stopped at. |
| Inputs.IndicesAgreeWithoutBlank | prepostchecker.py:39-49 | Without blank lines both port loops stop at the same line. |
| Inputs.GetInputsAgreeWithoutBlank | prepostchecker.py:25-61 | For an operator who never leaves a port line blank the correction changes no answer. |
| Inputs.BlankPortThenNumber | prepostchecker.py:39-49 | Lines "u", "", "2222", "pre" give port "2222" and mode "Pre": the blank line is re-prompted, not defaulted. |
| Inputs.LongPortLineSkipped | prepostchecker.py:39-49 | Lines "u", 4301 ones, "22", "pre" give port "22" and mode "Pre": the over-long line is asked again like any non-integer. |
| Inputs.BlankPortLast | prepostchecker.py:39-49 | Lines "u", "", "pre" give no answers: the port prompt never ends. |
| Inputs.BlankPortLastCorrected | prepostchecker.py:39-57 | With the correction the same lines give port "22" and mode "Pre". |
| Inputs.PyIntParsesHasDigit | prepostchecker.py:42 | A line `int()` accepts contains a digit, so the blank line always raises. |
| Inputs.DigitsParse | prepostchecker.py:42 | A run of plain digits is accepted by `int()` exactly when it is non-empty and has at most 4300 digits. |
| Inputs.LongDigitRunRejected | prepostchecker.py:42 | A line of 4301 ones is rejected: `int()` refuses more than 4300 digits. |
| Inputs.TrimStartSuffix | prepostchecker.py:42 | The leading-whitespace strip keeps the longest suffix not starting with whitespace, where whitespace is what `int()` strips: tab, line feed, vertical tab, form feed, carriage return and space below U+0080 (not U+001C-U+001F), and the Unicode spaces above it. |
| Inputs.TrimEndPrefix | prepostchecker.py:42 | The trailing-whitespace strip keeps the longest prefix not ending with the same `int()` whitespace. |
| Inputs.SeparatorNotStripped | prepostchecker.py:42 | A line starting with the separator U+001C before "22" is rejected, as `int()` does not strip it. |
| Inputs.Lower | prepostchecker.py:54 | Lower-casing keeps the length, maps each character on its own, and leaves no upper-case letter. |
| Inputs.Title | prepostchecker.py:53 | Title-casing keeps the length and changes only letter case: its lower-case form is the line's. |

## Left out

- The netmiko transport (`ConnectHandler`, `find_prompt`, `send_command`) is replaced by the outcome oracle; exceptions other than the authentication and timeout ones, which end the whole batch in the source, are not modelled.
- A failure after the log is written (prepostchecker.py:117-129) is not modelled: the oracle decides the outcome at connection time, so the partial case of a log plus an empty backup file does not arise.
- `Checks.VisitDevice`: `respond` is a function of the command alone, so a device whose answers change between two sends of the same command is not modelled.
- `datetime.now()` is the `clock` parameter; readings are limited to years 1000-9999 because `%Y` is not zero-padded below 1000 on glibc.
- `read_file`, the banner, `getpass`, and the file-name and directory lines printed to the console are I/O; the password is a parameter.
- The directory bootstrap with `os.makedirs` (prepostchecker.py:167-170) is not modelled; the target directory is assumed to exist.
- `Inputs.ReadRunMode`: `str.lower()` and `str.title()` are modelled for ASCII letters only; non-ASCII cased characters are treated as uncased.
- `Inputs.ReadPort`: `int()` is modelled for ASCII digits only; non-ASCII decimal digits are treated as invalid.
- `Inputs.ReadPortAsWritten`: a port line of non-ASCII decimal digits, which `int()` accepts, is treated as invalid.
- `Inputs.ParseIndex`: a line of non-ASCII decimal digits does not stop the loop, though `int()` accepts it.
- `Inputs.PortIndex`: a line of non-ASCII decimal digits does not stop the corrected loop, though `int()` accepts it.
- `Inputs.GetInputs`: a port answer in non-ASCII decimal digits is asked again, where the source keeps it.
- `Inputs.GetInputsCorrected`: a port answer in non-ASCII decimal digits is asked again, where the source keeps it.
- `Inputs.DigitsParse`: only ASCII digit runs are covered; non-ASCII decimal digits are not.
- The 4300-digit limit of `int()` is the interpreter's default (CPython 3.11 and later, and the security releases that introduced it); the `PYTHONINTMAXSTRDIGITS` setting or `sys.set_int_max_str_digits` changes it, and older interpreters have no limit. The model fixes it at 4300.
- The store names a file by its path string, so two different strings are two different files: the model assumes a case-sensitive file system without symbolic links or hard links. On a case-insensitive volume (the macOS default) hostnames that differ only in case, such as prompts "R1#" and "r1#" in one minute, share one log and one backup file, and the last device overwrites the first.
- The model assumes a POSIX host: `os.path.join` is `posixpath.join`, and text-mode `open(path, "w")` writes "\n" unchanged. On Windows the written files would hold "\r\n", and `ntpath.join` also treats `\` and drive letters as separators.
- The default `port="22"` of `prepostchecks` (prepostchecker.py:64) is not modelled: `Credentials.port` is always supplied, as the script's own call at prepostchecker.py:173 does.
- Checks.RerunSameMinute: the transport oracle gives one fixed outcome per set of connection parameters. So a device listed twice gets the same outcome both times: it cannot time out once and log in the other time. Across two runs the lemma allows a different oracle only when every device ends the same way and shows the same prompt.
- Interactive input that never produces an accepted line loops forever in the source; the model returns `None` when the typed lines run out.

## Findings

| source | as written | input that shows it | evidently intended | confidence | as-written member | corrected member |
|---|---|---|---|---|---|---|
| prepostchecker.py:41-45 | `int(port)` runs before the `port == ""` test, so a blank line raises `ValueError` and is rejected; the default branch can never run | a blank line at the "SSH port (leave blank for default)" prompt | a blank line selects port "22" | high; not executed | Inputs.ReadPortAsWritten, Inputs.GetInputs, Inputs.BlankPortRejectedAsWritten, Inputs.BlankPortLast | Inputs.ReadPort, Inputs.GetInputsCorrected, Inputs.BlankPortDefaults, Inputs.BlankPortLastCorrected |

=== FILE: capture.dfy ===
/**
 The string logic of one device's session in `prepostchecks`
 (prepostchecker.py:96, 109-113): the hostname taken from the prompt and the
 log buffer of delimited command outputs.
 */
module Capture {

  /** The device name: the prompt with every '#' removed, not only a trailing one. */
  function Hostname(prompt: string): (h: string)
    ensures forall i :: 0 <= i < |h| ==> h[i] != '#'
    ensures (forall i :: 0 <= i < |prompt| ==> prompt[i] != '#') ==> h == prompt
  {
    if |prompt| == 0 then ""
    else
      (if prompt[0] == '#' then "" else [prompt[0]]) + Hostname(prompt[1..])
  }

  /** Removing '#' keeps the other characters in order: it distributes over concatenation. */
  lemma {:induction false} HostnameAppend(a: string, b: string)
    ensures Hostname(a + b) == Hostname(a) + Hostname(b)
  {
    if |a| > 0 {
      assert (a + b)[0] == a[0];
      assert (a + b)[1..] == a[1..] + b;
      HostnameAppend(a[1..], b);
    } else {
      assert a + b == b;
    }
  }

  /** Every other character survives as often as it occurred; only the '#'s go. */
  lemma {:induction false} HostnameKeepsOthers(prompt: string)
    ensures forall c :: c != '#' ==> multiset(Hostname(prompt))[c] == multiset(prompt)[c]
    ensures |Hostname(prompt)| == |prompt| - multiset(prompt)['#']
  {
    if |prompt| > 0 {
      HostnameKeepsOthers(prompt[1..]);
      assert prompt == [prompt[0]] + prompt[1..];
      assert multiset(prompt) == multiset{prompt[0]} + multiset(prompt[1..]);
    }
  }

  /** A Cisco prompt "R1#" names the device "R1"; "a#b#" becomes "ab". */
  lemma HostnameExamples()
    ensures Hostname("R1#") == "R1"
    ensures Hostname("a#b#") == "ab"
  {
    assert Hostname("#") == "";
    assert Hostname("1#") == "1";
    assert Hostname("b#") == "b";
    assert Hostname("#b#") == "b";
  }

  /** A run of n stars, as Python's string repetition: empty for a zero or negative count. */
  function Stars(n: int): (s: string)
    ensures |s| == if n > 0 then n else 0
    ensures forall i :: 0 <= i < |s| ==> s[i] == '*'
  {
    if n <= 0 then "" else seq(n, _ => '*')
  }

  /**
   The line written before each command's output: one hundred characters wide
   around the command (wider only for a command over eighty characters), the
   command itself starting after a newline and twenty stars.
   */
  function Delimiter(command: string): (d: string)
    ensures |d| == 3 + (if |command| <= 80 then 100 else 20 + |command|)
    ensures d[21..21 + |command|] == command
  {
    "\n" + Stars(20) + command + Stars(80 - |command|) + "\n\n"
  }

  /**
   The delimiter is a newline, twenty stars, the command itself, stars up to
   a width of one hundred (none once the command is longer than eighty
   characters), and a blank line.
   */
  lemma DelimiterShape(command: string)
    ensures var d := Delimiter(command);
      && |d| == 3 + (if |command| <= 80 then 100 else 20 + |command|)
      && d[0] == '\n' && d[|d| - 2..] == "\n\n"
      && (forall i :: 1 <= i < 21 ==> d[i] == '*')
      && d[21..21 + |command|] == command
      && (forall i :: 21 + |command| <= i < |d| - 2 ==> d[i] == '*')
  {
    var d := Delimiter(command);
    assert d[21..21 + |command|] == command;
  }

  /** One command's contribution: its delimiter, then what the device answered. */
  function Entry(command: string, respond: string -> string): string
  {
    Delimiter(command) + respond(command)
  }

  /**
   The buffer after the loop has appended one entry per command, in order.
   Every command leaves at least its hundred-and-three-character delimiter, so
   a non-empty command list never yields an empty log.
   */
  function LogBuffer(commands: seq<string>, respond: string -> string): (r: string)
    ensures |r| >= 103 * |commands|
  {
    if |commands| == 0 then ""
    else LogBuffer(commands[..|commands| - 1], respond) + Entry(commands[|commands| - 1], respond)
  }

  /** The buffer of a concatenated command list is the concatenation of the buffers. */
  lemma {:induction false} LogBufferAppend(a: seq<string>, b: seq<string>, respond: string -> string)
    ensures LogBuffer(a + b, respond) == LogBuffer(a, respond) + LogBuffer(b, respond)
  {
    if |b| > 0 {
      var b', last := b[..|b| - 1], b[|b| - 1];
      assert b == b' + [last];
      assert a + b == (a + b') + [last];
      LogBufferSnoc(a + b', last, respond);
      LogBufferSnoc(b', last, respond);
      LogBufferAppend(a, b', respond);
      AppendAssoc(LogBuffer(a, respond), LogBuffer(b', respond), Entry(last, respond));
    } else {
      assert a + b == a;
    }
  }

  /** Regrouping a concatenation, stated on plain strings so the proof never looks inside them. */
  lemma AppendAssoc(x: string, y: string, z: string)
    ensures (x + y) + z == x + (y + z)
  {
  }

  /** Appending one command appends its entry. */
  lemma LogBufferSnoc(commands: seq<string>, c: string, respond: string -> string)
    ensures LogBuffer(commands + [c], respond) == LogBuffer(commands, respond) + Entry(c, respond)
  {
    assert (commands + [c])[..|commands|] == commands;
  }

  /**
   The i-th command's delimiter and output sit right after the entries of the
   commands before it and right before those after it: no reordering,
   dropping or merging, and a repeated command is captured every time.
   */
  lemma LogBufferEntryAt(commands: seq<string>, respond: string -> string, i: int)
    requires 0 <= i < |commands|
    ensures LogBuffer(commands, respond)
         == LogBuffer(commands[..i], respond) + Entry(commands[i], respond) + LogBuffer(commands[i + 1..], respond)
  {
    LogBufferSplit(commands, respond, i + 1);
    LogBufferPrefix(commands, respond, i);
  }

  lemma LogBufferSplit(commands: seq<string>, respond: string -> string, i: int)
    requires 0 <= i <= |commands|
    ensures LogBuffer(commands, respond) == LogBuffer(commands[..i], respond) + LogBuffer(commands[i..], respond)
  {
    assert commands == commands[..i] + commands[i..];
    LogBufferAppend(commands[..i], commands[i..], respond);
  }

  lemma LogBufferPrefix(commands: seq<string>, respond: string -> string, i: int)
    requires 0 <= i < |commands|
    ensures LogBuffer(commands[..i + 1], respond) == LogBuffer(commands[..i], respond) + Entry(commands[i], respond)
  {
    assert commands[..i + 1][..i] == commands[..i];
  }

  /** A single command's buffer is its entry. */
  lemma LogBufferSingle(c: string, respond: string -> string)
    ensures LogBuffer([c], respond) == Entry(c, respond)
  {
    assert [c][..0] == [];
  }

  /** A command listed twice is captured twice, back to back. */
  lemma DuplicateCommandCapturedTwice(c: string, respond: string -> string)
    ensures LogBuffer([c, c], respond) == Entry(c, respond) + Entry(c, respond)
  {
    assert [c, c][..1] == [c];
    LogBufferSingle(c, respond);
  }

  /** The source's accumulation loop over the command list. */
  method CaptureLogs(commands: seq<string>, respond: string -> string) returns (output: string)
    ensures output == LogBuffer(commands, respond)
  {
    output := "";
    var i := 0;
    while i < |commands|
      invariant 0 <= i <= |commands|
      invariant output == LogBuffer(commands[..i], respond)
    {
      output := output + Delimiter(commands[i]);
      output := output + respond(commands[i]);
      assert commands[..i + 1][..i] == commands[..i];
      i := i + 1;
    }
    assert commands[..i] == commands;
  }
}

=== FILE: chars.dfy ===
/** Character classes shared by the timestamp format and the port parser. */
module Chars {

  /** An ASCII decimal digit. */
  predicate IsDigit(c: char) { '0' <= c <= '9' }
}

=== FILE: checks.dfy ===
/**
 The batch loop `prepostchecks` (prepostchecker.py:64-143) as a pure function.

 The SSH transport is an oracle from the connection parameters to one of three
 outcomes; the wall clock is a sequence of readings indexed by how many
 `datetime.now()` calls came before; the output directory is a map from path
 to contents; printed progress lines become abstract events.
 */
module Checks {
  import opened Timestamp
  import opened Naming
  import opened Capture
  import opened FileStore

  /** The netmiko platform requested for every device. */
  const DeviceType := "cisco_xe"

  /** The command whose output becomes the backup artifact. */
  const BackupCommand := "show running"

  datatype Credentials = Credentials(username: string, password: string, port: string)

  /** The keyword arguments handed to the transport for one device. */
  datatype Connection = Connection(deviceType: string, host: string, username: string, password: string, port: string)

  /**
   What opening a session to one device yields: one of the two failures the
   loop catches, or a live session with its prompt and its answer to each command.
   */
  datatype Outcome =
    | AuthFail
    | Unreachable
    | Connected(prompt: string, respond: string -> string)

  /** Progress reported on the status channel. */
  datatype Event =
    | Connecting(host: string)
    | LoggedIn(hostname: string)
    | AuthSkipped
    | UnreachableSkipped
    | Completed(hostname: string)

  /** Everything the loop uses besides the device list; fixed for the run. */
  datatype Env = Env(
    commands: seq<string>,
    creds: Credentials,
    mode: string,
    cwd: string,
    transport: Connection -> Outcome,
    clock: nat -> Stamp)

  /** The files on disk, the events so far and the number of clock readings taken. */
  datatype State = State(files: Store, events: seq<Event>, readings: nat)

  /** What visiting one device does: the files it writes, in order, and its events. */
  datatype Visit = Visit(writes: seq<Write>, events: seq<Event>, readings: nat)

  /** The connection parameters for one device: the fixed platform, the device as host, and the operator's credentials. */
  function ConnectionFor(device: string, creds: Credentials): (c: Connection)
    ensures c.deviceType == "cisco_xe" && c.host == device
    ensures c.username == creds.username && c.password == creds.password && c.port == creds.port
  {
    Connection(DeviceType, device, creds.username, creds.password, creds.port)
  }

  function OutcomeFor(device: string, env: Env): Outcome
  {
    env.transport(ConnectionFor(device, env.creds))
  }

  /** The hosts of the "Connecting" events, in order. */
  function Attempted(events: seq<Event>): seq<string>
  {
    if |events| == 0 then []
    else
      var last := events[|events| - 1];
      Attempted(events[..|events| - 1]) + (if last.Connecting? then [last.host] else [])
  }

  lemma {:induction false} AttemptedAppend(a: seq<Event>, b: seq<Event>)
    ensures Attempted(a + b) == Attempted(a) + Attempted(b)
  {
    if |b| == 0 {
      assert a + b == a;
    } else {
      assert (a + b)[..|a + b| - 1] == a + b[..|b| - 1];
      AttemptedAppend(a, b[..|b| - 1]);
    }
  }

  lemma AttemptedSingle(e: Event)
    ensures Attempted([e]) == if e.Connecting? then [e.host] else []
  {
    assert [e][..0] == [];
  }

  /**
   The events of one device: "Connecting" first and nowhere else, and a last
   event that tells how the session ended.
   */
  function DeviceEvents(device: string, outcome: Outcome): (e: seq<Event>)
    ensures |e| >= 2 && e[0] == Connecting(device)
    ensures forall i :: 1 <= i < |e| ==> !e[i].Connecting?
    ensures e[|e| - 1] == AuthSkipped <==> outcome.AuthFail?
    ensures e[|e| - 1] == UnreachableSkipped <==> outcome.Unreachable?
    ensures e[|e| - 1].Completed? <==> outcome.Connected?
  {
    var tail := match outcome
      case AuthFail => [AuthSkipped]
      case Unreachable => [UnreachableSkipped]
      case Connected(prompt, _) => [LoggedIn(Hostname(prompt)), Completed(Hostname(prompt))];
    [Connecting(device)] + tail
  }

  /** Each device contributes exactly one "Connecting" event, for itself. */
  lemma DeviceEventsAttempted(device: string, outcome: Outcome)
    ensures Attempted(DeviceEvents(device, outcome)) == [device]
  {
    var events := DeviceEvents(device, outcome);
    var tail := events[1..];
    assert events == [Connecting(device)] + tail;
    AttemptedAppend([Connecting(device)], tail);
    AttemptedSingle(Connecting(device));
    if |tail| == 2 {
      AttemptedAppend([tail[0]], [tail[1]]);
      AttemptedSingle(tail[0]);
      AttemptedSingle(tail[1]);
      assert tail == [tail[0]] + [tail[1]];
    } else {
      AttemptedSingle(tail[0]);
      assert tail == [tail[0]];
    }
  }

  /** The log path and backup path a logged-in device's files go to. */
  function LogPathFor(hostname: string, env: Env, readings: nat): string
  {
    LogPath(env.cwd, env.mode, hostname, env.clock(readings))
  }

  function BackupPathFor(hostname: string, env: Env, readings: nat): string
  {
    BackupPath(env.cwd, env.mode, hostname, env.clock(readings + 1))
  }

  /**
   The two files a logged-in session writes, in the order the source writes
   them: the log under the first clock reading, the backup under the second.
   */
  function SessionWrites(hostname: string, respond: string -> string, env: Env, readings: nat): (w: seq<Write>)
    ensures |w| == 2 && w[0].path != w[1].path
  {
    var logPath := LogPathFor(hostname, env, readings);
    var backupPath := BackupPathFor(hostname, env, readings);
    LogAndBackupDistinct(env.cwd, env.mode, hostname, hostname, env.clock(readings), env.clock(readings + 1));
    [Write(logPath, LogBuffer(env.commands, respond)), Write(backupPath, respond(BackupCommand))]
  }

  /** One pass of the loop body for `device`, starting after `readings` clock readings. */
  function VisitDevice(device: string, env: Env, readings: nat): (v: Visit)
    ensures Attempted(v.events) == [device]
    ensures !OutcomeFor(device, env).Connected? ==> v.writes == [] && v.readings == readings
    ensures OutcomeFor(device, env).Connected? ==> |v.writes| == 2 && v.readings == readings + 2
  {
    var outcome := OutcomeFor(device, env);
    var events := DeviceEvents(device, outcome);
    DeviceEventsAttempted(device, outcome);
    match outcome
    case Connected(prompt, respond) =>
      Visit(SessionWrites(Hostname(prompt), respond, env, readings), events, readings + 2)
    case _ =>
      Visit([], events, readings)
  }

  /**
   The loop body for one device: it is attempted, no file is ever removed,
   and only a device that logs in changes the files or reads the clock.
   */
  function Step(st: State, device: string, env: Env): (r: State)
    ensures st.files.Keys <= r.files.Keys
    ensures !OutcomeFor(device, env).Connected? ==> r.files == st.files && r.readings == st.readings
    ensures OutcomeFor(device, env).Connected? ==> r.readings == st.readings + 2
    ensures |r.events| >= |st.events| + 2 && r.events[..|st.events|] == st.events
  {
    var v := VisitDevice(device, env, st.readings);
    State(ApplyWrites(st.files, v.writes), st.events + v.events, v.readings)
  }

  /**
   The loop over the device list, one device at a time, in list order. No
   file is removed and every device adds at least two events after the
   earlier ones.
   */
  function Batch(st: State, devices: seq<string>, env: Env): (r: State)
    ensures st.files.Keys <= r.files.Keys
    ensures st.readings <= r.readings
    ensures |r.events| >= |st.events| + 2 * |devices| && r.events[..|st.events|] == st.events
    decreases |devices|
  {
    if |devices| == 0 then st
    else Batch(Step(st, devices[0], env), devices[1..], env)
  }

  /** Every write the loop makes, in order, starting after `readings` clock readings. */
  function BatchWrites(readings: nat, devices: seq<string>, env: Env): seq<Write>
    decreases |devices|
  {
    if |devices| == 0 then []
    else
      var v := VisitDevice(devices[0], env, readings);
      v.writes + BatchWrites(v.readings, devices[1..], env)
  }

  /** Processing a list in two parts is processing the whole list. */
  lemma {:induction false} BatchAppend(st: State, a: seq<string>, b: seq<string>, env: Env)
    ensures Batch(st, a + b, env) == Batch(Batch(st, a, env), b, env)
    decreases |a|
  {
    if |a| == 0 {
      assert a + b == b;
    } else {
      assert (a + b)[0] == a[0];
      assert (a + b)[1..] == a[1..] + b;
      BatchAppend(Step(st, a[0], env), a[1..], b, env);
    }
  }

  /**
   Every device is attempted exactly once and in list order: the hosts of the
   new "Connecting" events are the device list itself.
   */
  lemma {:induction false} BatchAttemptsInOrder(st: State, devices: seq<string>, env: Env)
    ensures Attempted(Batch(st, devices, env).events) == Attempted(st.events) + devices
    decreases |devices|
  {
    if |devices| == 0 {
      assert Attempted(st.events) + devices == Attempted(st.events);
    } else {
      var next := Step(st, devices[0], env);
      var v := VisitDevice(devices[0], env, st.readings);
      AttemptedAppend(st.events, v.events);
      BatchAttemptsInOrder(next, devices[1..], env);
      ConsAfter(Attempted(st.events), devices);
    }
  }

  lemma ConsAfter(a: seq<string>, s: seq<string>)
    requires |s| > 0
    ensures a + [s[0]] + s[1..] == a + s
  {
    assert s == [s[0]] + s[1..];
  }

  /** The files after the loop are the files before with the loop's writes applied in order. */
  lemma {:induction false} BatchStore(st: State, devices: seq<string>, env: Env)
    ensures Batch(st, devices, env).files == ApplyWrites(st.files, BatchWrites(st.readings, devices, env))
    decreases |devices|
  {
    if |devices| == 0 {
    } else {
      var v := VisitDevice(devices[0], env, st.readings);
      ApplyWritesAppend(st.files, v.writes, BatchWrites(v.readings, devices[1..], env));
      BatchStore(Step(st, devices[0], env), devices[1..], env);
    }
  }

  /**
   A device whose login is rejected or that does not answer adds no file,
   takes no clock reading and leaves one skip event; the loop then goes on
   with the next device exactly as if the failed one had not been listed.
   */
  lemma FailedDeviceSkipped(st: State, device: string, rest: seq<string>, env: Env)
    requires OutcomeFor(device, env).AuthFail? || OutcomeFor(device, env).Unreachable?
    ensures Step(st, device, env).files == st.files
    ensures Step(st, device, env).readings == st.readings
    ensures OutcomeFor(device, env).AuthFail? ==> Step(st, device, env).events == st.events + [Connecting(device), AuthSkipped]
    ensures OutcomeFor(device, env).Unreachable? ==> Step(st, device, env).events == st.events + [Connecting(device), UnreachableSkipped]
    ensures Batch(st, [device] + rest, env) == Batch(Step(st, device, env), rest, env)
    ensures Batch(st, [device] + rest, env).files == Batch(st, rest, env).files
    ensures Batch(st, [device] + rest, env).readings == Batch(st, rest, env).readings
  {
    var next := Step(st, device, env);
    FailedStep(st, device, env);
    assert Batch(st, [device] + rest, env) == Batch(next, rest, env) by {
      assert ([device] + rest)[0] == device && ([device] + rest)[1..] == rest;
    }
    BatchIgnoresEvents(st, next.events, rest, env);
  }

  /** The loop pass of a failed device changes nothing but the events. */
  lemma FailedStep(st: State, device: string, env: Env)
    requires OutcomeFor(device, env).AuthFail? || OutcomeFor(device, env).Unreachable?
    ensures Step(st, device, env) == st.(events := st.events + DeviceEvents(device, OutcomeFor(device, env)))
    ensures OutcomeFor(device, env).AuthFail? ==> DeviceEvents(device, OutcomeFor(device, env)) == [Connecting(device), AuthSkipped]
    ensures OutcomeFor(device, env).Unreachable? ==> DeviceEvents(device, OutcomeFor(device, env)) == [Connecting(device), UnreachableSkipped]
  {
    assert VisitDevice(device, env, st.readings).writes == [];
  }

  /** The files and clock readings of a batch do not depend on the events reported before it. */
  lemma {:induction false} BatchIgnoresEvents(st: State, events: seq<Event>, devices: seq<string>, env: Env)
    ensures Batch(st.(events := events), devices, env).files == Batch(st, devices, env).files
    ensures Batch(st.(events := events), devices, env).readings == Batch(st, devices, env).readings
    decreases |devices|
  {
    if |devices| > 0 {
      var v := VisitDevice(devices[0], env, st.readings);
      var next := Step(st, devices[0], env);
      assert Step(st.(events := events), devices[0], env) == next.(events := events + v.events);
      BatchIgnoresEvents(next, events + v.events, devices[1..], env);
    }
  }

  lemma StepConnectedFiles(st: State, device: string, env: Env)
    requires OutcomeFor(device, env).Connected?
    ensures
      var o := OutcomeFor(device, env);
      var hostname := Hostname(o.prompt);
      Step(st, device, env).files
        == st.files[LogPathFor(hostname, env, st.readings) := LogBuffer(env.commands, o.respond)]
                   [BackupPathFor(hostname, env, st.readings) := o.respond(BackupCommand)]
  {
    var o := OutcomeFor(device, env);
    var w := SessionWrites(Hostname(o.prompt), o.respond, env, st.readings);
    assert Step(st, device, env).files == ApplyWrites(st.files, w);
    ApplyTwo(st.files, w[0], w[1]);
  }

  /**
   A device that logs in gets exactly two files under the names built from
   its prompt-derived hostname and two consecutive clock readings: the log,
   holding the delimited outputs of all commands, and the backup, holding its
   running configuration. Every other file is untouched.
   */
  lemma SuccessfulDeviceArtifacts(st: State, device: string, env: Env)
    requires OutcomeFor(device, env).Connected?
    ensures
      var o := OutcomeFor(device, env);
      var hostname := Hostname(o.prompt);
      var logPath := LogPathFor(hostname, env, st.readings);
      var backupPath := BackupPathFor(hostname, env, st.readings);
      var after := Step(st, device, env).files;
      && logPath != backupPath
      && after.Keys == st.files.Keys + {logPath, backupPath}
      && after[logPath] == LogBuffer(env.commands, o.respond)
      && after[backupPath] == o.respond(BackupCommand)
      && (forall p :: p in st.files && p != logPath && p != backupPath ==> after[p] == st.files[p])
  {
    var o := OutcomeFor(device, env);
    var hostname := Hostname(o.prompt);
    var logPath := LogPathFor(hostname, env, st.readings);
    var backupPath := BackupPathFor(hostname, env, st.readings);
    StepConnectedFiles(st, device, env);
    LogAndBackupDistinct(env.cwd, env.mode, hostname, hostname, env.clock(st.readings), env.clock(st.readings + 1));
    UpdateTwo(st.files, logPath, backupPath, LogBuffer(env.commands, o.respond), o.respond(BackupCommand));
  }

  /**
   A device that logs in reports its hostname twice (logged in, completed)
   after the "Connecting" event, and takes two clock readings.
   */
  lemma SuccessfulDeviceEvents(st: State, device: string, env: Env)
    requires OutcomeFor(device, env).Connected?
    ensures
      var hostname := Hostname(OutcomeFor(device, env).prompt);
      && Step(st, device, env).events == st.events + [Connecting(device), LoggedIn(hostname), Completed(hostname)]
      && Step(st, device, env).readings == st.readings + 2
  {
  }

  /** With a clock stuck in one minute, the loop's writes do not depend on how many readings came before. */
  lemma {:induction false} BatchWritesOneMinute(r1: nat, r2: nat, devices: seq<string>, env: Env)
    requires forall k: nat :: env.clock(k) == env.clock(0)
    ensures BatchWrites(r1, devices, env) == BatchWrites(r2, devices, env)
    decreases |devices|
  {
    if |devices| > 0 {
      var v1 := VisitDevice(devices[0], env, r1);
      var v2 := VisitDevice(devices[0], env, r2);
      assert v1.writes == v2.writes by {
        assert env.clock(r1) == env.clock(r2);
        assert env.clock(r1 + 1) == env.clock(r2 + 1);
      }
      BatchWritesOneMinute(v1.readings, v2.readings, devices[1..], env);
    }
  }

  /**
   Two answers to one connection that end the same way and show the same
   prompt; the device may answer commands differently.
   */
  predicate SameSession(o1: Outcome, o2: Outcome)
  {
    && o1.AuthFail? == o2.AuthFail?
    && o1.Unreachable? == o2.Unreachable?
    && (o1.Connected? && o2.Connected? ==> o1.prompt == o2.prompt)
  }

  lemma SessionPaths(hostname: string, respond: string -> string, env: Env, readings: nat)
    ensures Paths(SessionWrites(hostname, respond, env, readings))
         == {LogPathFor(hostname, env, readings), BackupPathFor(hostname, env, readings)}
  {
    var w := SessionWrites(hostname, respond, env, readings);
    assert w == [w[0], w[1]];
    PathsOfTwo(w[0], w[1]);
  }

  lemma VisitSamePaths(device: string, r: nat, env: Env, transport: Connection -> Outcome)
    requires forall c :: SameSession(env.transport(c), transport(c))
    ensures
      var v1 := VisitDevice(device, env, r);
      var v2 := VisitDevice(device, env.(transport := transport), r);
      v1.readings == v2.readings && Paths(v1.writes) == Paths(v2.writes)
  {
    var env2 := env.(transport := transport);
    var o1 := OutcomeFor(device, env);
    var o2 := OutcomeFor(device, env2);
    assert SameSession(o1, o2) by {
      assert o2 == transport(ConnectionFor(device, env.creds));
    }
    if o1.Connected? {
      var h := Hostname(o1.prompt);
      assert Hostname(o2.prompt) == h;
      SessionPaths(h, o1.respond, env, r);
      SessionPaths(h, o2.respond, env2, r);
      assert LogPathFor(h, env, r) == LogPathFor(h, env2, r);
      assert BackupPathFor(h, env, r) == BackupPathFor(h, env2, r);
    }
  }

  /** Sessions that end the same way write to the same paths, whatever the devices answer. */
  lemma {:induction false} BatchWritesSamePaths(r: nat, devices: seq<string>, env: Env, transport: Connection -> Outcome)
    requires forall c :: SameSession(env.transport(c), transport(c))
    ensures Paths(BatchWrites(r, devices, env)) == Paths(BatchWrites(r, devices, env.(transport := transport)))
    decreases |devices|
  {
    if |devices| > 0 {
      var env2 := env.(transport := transport);
      var v1 := VisitDevice(devices[0], env, r);
      var v2 := VisitDevice(devices[0], env2, r);
      VisitSamePaths(devices[0], r, env, transport);
      BatchWritesSamePaths(v1.readings, devices[1..], env, transport);
      PathsAppend(v1.writes, BatchWrites(v1.readings, devices[1..], env));
      PathsAppend(v2.writes, BatchWrites(v2.readings, devices[1..], env2));
    }
  }

  /**
   Running the batch again within the same minute overwrites: every device
   that logs in again with the same prompt rewrites the same two files, so
   the second run's files are exactly what it would have left on its own,
   whatever the first run wrote into them. Nothing is added or duplicated.
   */
  lemma RerunSameMinute(st: State, devices: seq<string>, env: Env, transport: Connection -> Outcome)
    requires forall k: nat :: env.clock(k) == env.clock(0)
    requires forall c :: SameSession(env.transport(c), transport(c))
    ensures
      var env2 := env.(transport := transport);
      Batch(Batch(st, devices, env), devices, env2).files == Batch(st, devices, env2).files
  {
    var env2 := env.(transport := transport);
    var first := Batch(st, devices, env);
    BatchStore(st, devices, env);
    BatchStore(first, devices, env2);
    BatchStore(st, devices, env2);
    BatchWritesOneMinute(first.readings, st.readings, devices, env2);
    BatchWritesSamePaths(st.readings, devices, env, transport);
    ApplyWritesCovered(st.files, BatchWrites(st.readings, devices, env), BatchWrites(st.readings, devices, env2));
  }

  /** In particular the identical batch run twice in one minute leaves the files as one run does. */
  lemma RerunIdentical(st: State, devices: seq<string>, env: Env)
    requires forall k: nat :: env.clock(k) == env.clock(0)
    ensures Batch(Batch(st, devices, env), devices, env).files == Batch(st, devices, env).files
  {
    assert env.(transport := env.transport) == env;
    RerunSameMinute(st, devices, env, env.transport);
  }

  /**
   The whole batch over a directory holding `files`: every device is
   attempted once in order, and the directory ends up as `files` with the
   loop's writes applied.
   */
  function PrePostChecks(devices: seq<string>, env: Env, files: Store): (r: State)
    ensures Attempted(r.events) == devices
    ensures r.files == ApplyWrites(files, BatchWrites(0, devices, env))
  {
    var start := State(files, [], 0);
    var r := Batch(start, devices, env);
    assert Attempted(r.events) == devices by {
      BatchAttemptsInOrder(start, devices, env);
      assert Attempted(start.events) == [];
    }
    assert r.files == ApplyWrites(files, BatchWrites(0, devices, env)) by {
      BatchStore(start, devices, env);
    }
    r
  }

  /** A transport where 10.0.0.1 logs in with prompt "R1#" and every other host rejects the login. */
  function ScenarioTransport(respond: string -> string): Connection -> Outcome
  {
    (c: Connection) => if c.host == "10.0.0.1" then Connected("R1#", respond) else AuthFail
  }

  function ScenarioEnv(creds: Credentials, cwd: string, respond: string -> string, clock: nat -> Stamp): Env
  {
    Env(["show version"], creds, "Pre", cwd, ScenarioTransport(respond), clock)
  }

  /**
   Two devices, one command; the first logs in as R1, the second rejects the
   credentials. R1 gets one log holding the delimited "show version" output
   and one backup; the second device leaves only its skip event.
   */
  lemma EndToEndScenario(creds: Credentials, cwd: string, respond: string -> string, clock: nat -> Stamp, files: Store)
    ensures
      var r := PrePostChecks(["10.0.0.1", "10.0.0.2"], ScenarioEnv(creds, cwd, respond, clock), files);
      && r.files == files[LogPath(cwd, "Pre", "R1", clock(0)) := Entry("show version", respond)]
                         [BackupPath(cwd, "Pre", "R1", clock(1)) := respond(BackupCommand)]
      && r.events == [Connecting("10.0.0.1"), LoggedIn("R1"), Completed("R1"), Connecting("10.0.0.2"), AuthSkipped]
  {
    var env := ScenarioEnv(creds, cwd, respond, clock);
    var s1 := Step(State(files, [], 0), "10.0.0.1", env);
    ScenarioRun(env, files);
    ScenarioFirstDevice(creds, cwd, respond, clock, files);
    ScenarioSecondDevice(s1, creds, cwd, respond, clock);
    ScenarioEvents(s1.events);
  }

  lemma ScenarioEvents(events: seq<Event>)
    requires events == [Connecting("10.0.0.1"), LoggedIn("R1"), Completed("R1")]
    ensures events + [Connecting("10.0.0.2"), AuthSkipped]
         == [Connecting("10.0.0.1"), LoggedIn("R1"), Completed("R1"), Connecting("10.0.0.2"), AuthSkipped]
  {
  }

  lemma ScenarioSecondDevice(st: State, creds: Credentials, cwd: string, respond: string -> string, clock: nat -> Stamp)
    ensures
      var s := Step(st, "10.0.0.2", ScenarioEnv(creds, cwd, respond, clock));
      s.files == st.files && s.events == st.events + [Connecting("10.0.0.2"), AuthSkipped]
  {
    var env := ScenarioEnv(creds, cwd, respond, clock);
    assert OutcomeFor("10.0.0.2", env).AuthFail?;
    FailedDeviceSkipped(st, "10.0.0.2", [], env);
  }

  lemma ScenarioRun(env: Env, files: Store)
    ensures PrePostChecks(["10.0.0.1", "10.0.0.2"], env, files)
         == Step(Step(State(files, [], 0), "10.0.0.1", env), "10.0.0.2", env)
  {
    var devices := ["10.0.0.1", "10.0.0.2"];
    assert devices[1..] == ["10.0.0.2"];
    assert ["10.0.0.2"][1..] == [];
  }

  lemma ScenarioFirstDevice(creds: Credentials, cwd: string, respond: string -> string, clock: nat -> Stamp, files: Store)
    ensures
      var s1 := Step(State(files, [], 0), "10.0.0.1", ScenarioEnv(creds, cwd, respond, clock));
      && s1.files == files[LogPath(cwd, "Pre", "R1", clock(0)) := Entry("show version", respond)]
                          [BackupPath(cwd, "Pre", "R1", clock(1)) := respond(BackupCommand)]
      && s1.events == [Connecting("10.0.0.1"), LoggedIn("R1"), Completed("R1")]
  {
    var env := ScenarioEnv(creds, cwd, respond, clock);
    var start := State(files, [], 0);
    var s1 := Step(start, "10.0.0.1", env);
    assert OutcomeFor("10.0.0.1", env).prompt == "R1#";
    assert OutcomeFor("10.0.0.1", env).respond == respond;
    HostnameExamples();
    assert s1.files == files[LogPathFor("R1", env, 0) := LogBuffer(["show version"], respond)]
                            [BackupPathFor("R1", env, 0) := respond(BackupCommand)] by {
      StepConnectedFiles(start, "10.0.0.1", env);
    }
    LogBufferSingle("show version", respond);
    SuccessfulDeviceEvents(start, "10.0.0.1", env);
  }
}

=== FILE: filestore.dfy ===
/**
 The output directory as a map from path to contents. Each artifact is written
 with `open(path, "w")` (prepostchecker.py:117-118, 128-129): the file is
 created or truncated and then holds exactly the new contents.
 */
module FileStore {
  import opened Options

  type Store = map<string, string>

  datatype Write = Write(path: string, contents: string)

  function Paths(writes: seq<Write>): set<string>
  {
    set i | 0 <= i < |writes| :: writes[i].path
  }

  /** Carries out the writes in order, each one replacing the whole file. */
  function ApplyWrites(files: Store, writes: seq<Write>): (r: Store)
    ensures r.Keys == files.Keys + Paths(writes)
  {
    if |writes| == 0 then files
    else
      var w := writes[|writes| - 1];
      assert Paths(writes) == Paths(writes[..|writes| - 1]) + {w.path} by {
        assert forall i :: 0 <= i < |writes| - 1 ==> writes[..|writes| - 1][i] == writes[i];
      }
      ApplyWrites(files, writes[..|writes| - 1])[w.path := w.contents]
  }

  /** The contents of the last write to `p`, if any. */
  function LastWrite(writes: seq<Write>, p: string): Option<string>
  {
    if |writes| == 0 then None
    else if writes[|writes| - 1].path == p then Some(writes[|writes| - 1].contents)
    else LastWrite(writes[..|writes| - 1], p)
  }

  /**
   After the writes, a path holds what was last written to it; a path nobody
   wrote to is exactly as before.
   */
  lemma {:induction false} ApplyWritesLookup(files: Store, writes: seq<Write>, p: string)
    ensures LastWrite(writes, p).Some? ==> p in ApplyWrites(files, writes) && ApplyWrites(files, writes)[p] == LastWrite(writes, p).value
    ensures LastWrite(writes, p).None? ==> (p in ApplyWrites(files, writes) <==> p in files)
    ensures LastWrite(writes, p).None? && p in files ==> ApplyWrites(files, writes)[p] == files[p]
  {
    if |writes| > 0 {
      ApplyWritesLookup(files, writes[..|writes| - 1], p);
    }
  }

  lemma PathsOfTwo(w0: Write, w1: Write)
    ensures Paths([w0, w1]) == {w0.path, w1.path}
  {
    assert [w0, w1][0] == w0 && [w0, w1][1] == w1;
  }

  /** Two writes in a row: the second one wins where their paths meet. */
  lemma ApplyTwo(files: Store, w0: Write, w1: Write)
    ensures ApplyWrites(files, [w0, w1]) == files[w0.path := w0.contents][w1.path := w1.contents]
  {
    assert [w0, w1][..1] == [w0];
    assert [w0][..0] == [];
    assert ApplyWrites(files, [w0]) == ApplyWrites(files, [])[w0.path := w0.contents];
  }

  /** Two updates at distinct paths: both land, nothing else moves. */
  lemma UpdateTwo(files: Store, p: string, q: string, a: string, b: string)
    requires p != q
    ensures var r := files[p := a][q := b];
      && r.Keys == files.Keys + {p, q}
      && r[p] == a && r[q] == b
      && forall k :: k in files && k != p && k != q ==> r[k] == files[k]
  {
  }

  /** Writing a sequence and then another is writing their concatenation. */
  lemma {:induction false} ApplyWritesAppend(files: Store, a: seq<Write>, b: seq<Write>)
    ensures ApplyWrites(files, a + b) == ApplyWrites(ApplyWrites(files, a), b)
  {
    if |b| == 0 {
      assert a + b == a;
    } else {
      assert (a + b)[..|a + b| - 1] == a + b[..|b| - 1];
      ApplyWritesAppend(files, a, b[..|b| - 1]);
    }
  }

  /** A path has a last write exactly when some write goes to it. */
  lemma {:induction false} LastWritePaths(writes: seq<Write>, p: string)
    ensures LastWrite(writes, p).Some? <==> p in Paths(writes)
  {
    if |writes| > 0 {
      var init := writes[..|writes| - 1];
      LastWritePaths(init, p);
      assert Paths(writes) == Paths(init) + {writes[|writes| - 1].path} by {
        assert forall i :: 0 <= i < |init| ==> init[i] == writes[i];
      }
    }
  }

  lemma PathsAppend(a: seq<Write>, b: seq<Write>)
    ensures Paths(a + b) == Paths(a) + Paths(b)
  {
    forall p | p in Paths(b) ensures p in Paths(a + b) {
      var i :| 0 <= i < |b| && b[i].path == p;
      assert (a + b)[|a| + i] == b[i];
    }
    forall p | p in Paths(a) ensures p in Paths(a + b) {
      var i :| 0 <= i < |a| && a[i].path == p;
      assert (a + b)[i] == a[i];
    }
    forall p | p in Paths(a + b) ensures p in Paths(a) + Paths(b) {
      var i :| 0 <= i < |a + b| && (a + b)[i].path == p;
      if i < |a| {
        assert (a + b)[i] == a[i];
      } else {
        assert (a + b)[i] == b[i - |a|];
      }
    }
  }

  /**
   Writes whose paths are all written again later leave no trace: the later
   writes overwrite every file the earlier ones created or changed.
   */
  lemma ApplyWritesCovered(files: Store, a: seq<Write>, b: seq<Write>)
    requires Paths(a) <= Paths(b)
    ensures ApplyWrites(ApplyWrites(files, a), b) == ApplyWrites(files, b)
  {
    var mid := ApplyWrites(files, a);
    var left := ApplyWrites(mid, b);
    var right := ApplyWrites(files, b);
    forall p | p in left
      ensures p in right && left[p] == right[p]
    {
      ApplyWritesLookup(mid, b, p);
      ApplyWritesLookup(files, b, p);
      ApplyWritesLookup(files, a, p);
      LastWritePaths(a, p);
      LastWritePaths(b, p);
    }
    assert left.Keys == right.Keys;
  }

  /**
   Repeating the same writes overwrites instead of adding files: the store is
   unchanged, paths and contents alike.
   */
  lemma ApplyWritesIdempotent(files: Store, writes: seq<Write>)
    ensures ApplyWrites(ApplyWrites(files, writes), writes) == ApplyWrites(files, writes)
  {
    var once := ApplyWrites(files, writes);
    var twice := ApplyWrites(once, writes);
    forall p | p in twice
      ensures p in once && twice[p] == once[p]
    {
      ApplyWritesLookup(files, writes, p);
      ApplyWritesLookup(once, writes, p);
    }
  }
}

=== FILE: inputs.dfy ===
/**
 The pure parts of `get_inputs` in prepostchecker.py: the run-mode prompt loop
 (title-casing, then a case-insensitive comparison with "pre"/"post") and the SSH
 port prompt loop (the line must parse as a Python integer).

 Interactive input is modelled as the finite sequence of lines the operator
 types; `None` means the lines ran out before one was accepted.
 Characters are handled as Python does for ASCII; see README for what is left out.
 */
module Inputs {
  import opened Options
  import opened Chars

  // ---------------------------------------------------------------------------
  // ASCII case mapping, as str.lower() / str.title() do it
  // ---------------------------------------------------------------------------

  predicate IsUpperCase(c: char) { 'A' <= c <= 'Z' }

  predicate IsLowerCase(c: char) { 'a' <= c <= 'z' }

  /** A cased character: one that has an upper- and a lower-case form. */
  predicate IsCased(c: char) { IsUpperCase(c) || IsLowerCase(c) }

  function ToLowerChar(c: char): char
  {
    if IsUpperCase(c) then (c as int + 32) as char else c
  }

  function ToUpperChar(c: char): char
  {
    if IsLowerCase(c) then (c as int - 32) as char else c
  }

  /** str.lower(): every character mapped on its own, none left upper-case. */
  function Lower(s: string): (r: string)
    ensures |r| == |s|
    ensures forall i :: 0 <= i < |s| ==> r[i] == ToLowerChar(s[i])
    ensures forall i :: 0 <= i < |r| ==> !IsUpperCase(r[i])
  {
    if |s| == 0 then "" else [ToLowerChar(s[0])] + Lower(s[1..])
  }

  /**
   str.title(): a cased character is upper-cased when the character before it
   is not cased, and lower-cased otherwise; `prevCased` carries that flag.
   */
  function TitleFrom(s: string, prevCased: bool): (r: string)
    ensures |r| == |s|
  {
    if |s| == 0 then ""
    else
      var c := if prevCased then ToLowerChar(s[0]) else ToUpperChar(s[0]);
      [c] + TitleFrom(s[1..], IsCased(s[0]))
  }

  /** str.title() keeps the length and changes only the case of letters. */
  function Title(s: string): (r: string)
    ensures |r| == |s|
    ensures Lower(r) == Lower(s)
  {
    LowerOfTitle(s, false);
    TitleFrom(s, false)
  }

  lemma CharCaseFacts(c: char)
    ensures ToLowerChar(ToLowerChar(c)) == ToLowerChar(c)
    ensures ToUpperChar(ToLowerChar(c)) == ToUpperChar(c)
    ensures IsCased(ToLowerChar(c)) == IsCased(c)
  {
  }

  /** Lower-casing a title-cased string gives the lower-cased original. */
  lemma {:induction false} LowerOfTitle(s: string, prevCased: bool)
    ensures Lower(TitleFrom(s, prevCased)) == Lower(s)
  {
    if |s| > 0 {
      LowerOfTitle(s[1..], IsCased(s[0]));
      CharCaseFacts(s[0]);
    }
  }

  /** Title-casing ignores the case the operator typed. */
  lemma {:induction false} TitleIgnoresCase(s: string, prevCased: bool)
    ensures TitleFrom(s, prevCased) == TitleFrom(Lower(s), prevCased)
  {
    if |s| > 0 {
      CharCaseFacts(s[0]);
      TitleIgnoresCase(s[1..], IsCased(s[0]));
      assert Lower(s)[1..] == Lower(s[1..]);
    }
  }

  // ---------------------------------------------------------------------------
  // Run mode (prepostchecker.py:52-57)
  // ---------------------------------------------------------------------------

  /** The loop's exit test, applied to the title-cased line as the source does. */
  predicate RunModeAccepted(line: string)
  {
    var titled := Title(line);
    Lower(titled) == "pre" || Lower(titled) == "post"
  }

  /**
   A line is accepted exactly when its lower-case form is "pre" or "post", and
   the value kept (the title-cased line) is then exactly "Pre" or "Post", the
   same for every spelling of one mode.
   */
  lemma RunModeAcceptedIff(line: string)
    ensures RunModeAccepted(line) <==> Lower(line) == "pre" || Lower(line) == "post"
    ensures Lower(line) == "pre" ==> Title(line) == "Pre"
    ensures Lower(line) == "post" ==> Title(line) == "Post"
  {
    LowerOfTitle(line, false);
    TitleIgnoresCase(line, false);
    TitleOfModes();
  }

  lemma TitleOfModes()
    ensures Title("pre") == "Pre" && Title("post") == "Post"
  {
    assert TitleFrom("e", true) == "e";
    assert TitleFrom("re", true) == "re";
    assert TitleFrom("t", true) == "t";
    assert TitleFrom("st", true) == "st";
    assert TitleFrom("ost", true) == "ost";
  }

  /** Index of the first accepted line, or |lines| when there is none. */
  function FirstAccepted(lines: seq<string>): (k: nat)
    ensures k <= |lines|
    ensures forall j :: 0 <= j < k ==> !RunModeAccepted(lines[j])
    ensures k < |lines| ==> RunModeAccepted(lines[k])
  {
    if |lines| == 0 then 0
    else if RunModeAccepted(lines[0]) then 0
    else 1 + FirstAccepted(lines[1..])
  }

  /**
   The run-mode loop: prompt until a line is accepted and keep its title-cased
   form. `None` when the operator's lines run out first.
   */
  function ReadRunMode(lines: seq<string>): (r: Option<string>)
    ensures r.None? <==> forall j :: 0 <= j < |lines| ==> !RunModeAccepted(lines[j])
    ensures r.Some? ==> r.value == "Pre" || r.value == "Post"
    ensures r.Some? ==> FirstAccepted(lines) < |lines| && r.value == Title(lines[FirstAccepted(lines)])
  {
    var k := FirstAccepted(lines);
    if k == |lines| then None
    else
      RunModeAcceptedIff(lines[k]);
      Some(Title(lines[k]))
  }

  // ---------------------------------------------------------------------------
  // SSH port (prepostchecker.py:39-49)
  // ---------------------------------------------------------------------------

  /**
   The whitespace int() strips from both ends of a string: below U+0080 only
   tab, line feed, vertical tab, form feed, carriage return and space (the
   separators U+001C-U+001F are kept and make the parse fail); above it every
   character str.isspace() accepts, which int() first turns into a space.
   */
  predicate IsPySpace(c: char)
  {
    var n := c as int;
    || (9 <= n <= 13) || n == 32 || n == 0x85 || n == 0xA0 || n == 0x1680
    || (0x2000 <= n <= 0x200A) || n == 0x2028 || n == 0x2029 || n == 0x202F
    || n == 0x205F || n == 0x3000
  }

  /** `s` without its leading whitespace. */
  function TrimStart(s: string): string
  {
    if |s| > 0 && IsPySpace(s[0]) then TrimStart(s[1..]) else s
  }

  /** `s` without its trailing whitespace. */
  function TrimEnd(s: string): string
  {
    if |s| > 0 && IsPySpace(s[|s| - 1]) then TrimEnd(s[..|s| - 1]) else s
  }

  /** TrimStart keeps the longest suffix of `s` that does not start with whitespace. */
  lemma {:induction false} TrimStartSuffix(s: string)
    ensures var r := TrimStart(s);
      && |r| <= |s| && r == s[|s| - |r|..]
      && (forall i :: 0 <= i < |s| - |r| ==> IsPySpace(s[i]))
      && (|r| > 0 ==> !IsPySpace(r[0]))
  {
    if |s| > 0 && IsPySpace(s[0]) {
      TrimStartSuffix(s[1..]);
    }
  }

  /** TrimEnd keeps the longest prefix of `s` that does not end with whitespace. */
  lemma {:induction false} TrimEndPrefix(s: string)
    ensures var r := TrimEnd(s);
      && |r| <= |s| && r == s[..|r|]
      && (forall i :: |r| <= i < |s| ==> IsPySpace(s[i]))
      && (|r| > 0 ==> !IsPySpace(r[|r| - 1]))
  {
    if |s| > 0 && IsPySpace(s[|s| - 1]) {
      TrimEndPrefix(s[..|s| - 1]);
    }
  }

  /** One or more digits, single underscores allowed between digits. */
  predicate DigitRun(s: string)
  {
    && |s| > 0
    && IsDigit(s[0])
    && (|s| == 1 || DigitRun(s[1..]) || (s[1] == '_' && DigitRun(s[2..])))
  }

  /**
   The most decimal digits `int()` converts: the interpreter's default limit
   on integer string conversion, which rejects longer inputs with ValueError.
   */
  const MaxStrDigits := 4300

  /** The number of decimal digits in `s`; signs and underscores do not count. */
  function DigitCount(s: string): (n: nat)
    ensures n <= |s|
  {
    if |s| == 0 then 0 else (if IsDigit(s[0]) then 1 else 0) + DigitCount(s[1..])
  }

  /**
   `int(s)` succeeds: optional whitespace, an optional sign, a digit run of at
   most MaxStrDigits digits (leading zeros included).
   */
  predicate PyIntParses(s: string)
  {
    var t := TrimEnd(TrimStart(s));
    && |t| > 0
    && (if t[0] == '+' || t[0] == '-' then DigitRun(t[1..]) else DigitRun(t))
    && DigitCount(t) <= MaxStrDigits
  }

  /** A line `int()` accepts holds a digit, so the empty line is never accepted. */
  lemma PyIntParsesHasDigit(s: string)
    ensures PyIntParses(s) ==> exists i :: 0 <= i < |s| && IsDigit(s[i])
    ensures !PyIntParses("")
  {
    var u := TrimStart(s);
    var t := TrimEnd(u);
    TrimStartSuffix(s);
    TrimEndPrefix(u);
    if PyIntParses(s) {
      var j := if t[0] == '+' || t[0] == '-' then 1 else 0;
      assert IsDigit(t[j]);
      assert t[j] == u[j] == s[|s| - |u| + j];
    }
  }

  /** An information separator is not whitespace to int(): "\x1c22" is rejected. */
  lemma SeparatorNotStripped()
    ensures !PyIntParses(['\U{1C}', '2', '2'])
  {
    var s := ['\U{1C}', '2', '2'];
    assert TrimStart(s) == s;
    assert TrimEnd(s) == s;
  }

  /**
   A run of plain digits, with no space or sign, is accepted exactly when it is
   non-empty and no longer than MaxStrDigits.
   */
  lemma {:induction false} DigitsParse(s: string)
    requires forall i :: 0 <= i < |s| ==> IsDigit(s[i])
    ensures PyIntParses(s) <==> 0 < |s| <= MaxStrDigits
  {
    if |s| > 0 {
      assert !IsPySpace(s[0]) && !IsPySpace(s[|s| - 1]);
      assert TrimStart(s) == s;
      assert TrimEnd(s) == s;
      DigitsAreDigitRun(s);
      AllDigitsCount(s);
    }
  }

  lemma {:induction false} AllDigitsCount(s: string)
    requires forall i :: 0 <= i < |s| ==> IsDigit(s[i])
    ensures DigitCount(s) == |s|
  {
    if |s| > 0 {
      AllDigitsCount(s[1..]);
    }
  }

  /** A line of 4301 ones is rejected: it is over the digit limit. */
  lemma LongDigitRunRejected()
    ensures !PyIntParses(seq(MaxStrDigits + 1, _ => '1'))
  {
    DigitsParse(seq(MaxStrDigits + 1, _ => '1'));
  }

  lemma {:induction false} DigitsAreDigitRun(s: string)
    requires |s| > 0 && forall i :: 0 <= i < |s| ==> IsDigit(s[i])
    ensures DigitRun(s)
  {
    if |s| > 1 {
      DigitsAreDigitRun(s[1..]);
    }
  }

  /** Index of the first line `int()` accepts, or |lines| when there is none. */
  function ParseIndex(lines: seq<string>): (k: nat)
    ensures k <= |lines|
    ensures forall j :: 0 <= j < k ==> !PyIntParses(lines[j])
    ensures k < |lines| ==> PyIntParses(lines[k])
  {
    if |lines| == 0 then 0
    else if PyIntParses(lines[0]) then 0
    else 1 + ParseIndex(lines[1..])
  }

  /**
   The port loop as written: a line is kept when integer parsing does not raise,
   and only then is it compared with "" to substitute the default "22". The
   comparison never succeeds, so the line kept is always the first line that
   parses, never the default.
   */
  function ReadPortAsWritten(lines: seq<string>): (r: Option<string>)
    ensures r.None? <==> forall j :: 0 <= j < |lines| ==> !PyIntParses(lines[j])
    ensures r.Some? ==> ParseIndex(lines) < |lines| && r.value == lines[ParseIndex(lines)]
    ensures r.Some? ==> PyIntParses(r.value)
  {
    if |lines| == 0 then None
    else if PyIntParses(lines[0]) then
      PyIntParsesHasDigit(lines[0]);
      Some(if lines[0] == "" then "22" else lines[0])
    else
      assert ParseIndex(lines) == 1 + ParseIndex(lines[1..]);
      assert forall j :: 1 <= j < |lines| ==> lines[j] == lines[1..][j - 1];
      ReadPortAsWritten(lines[1..])
  }

  /**
   The blank line the prompt advertises as "leave blank for default" is
   rejected, never defaulted: a blank answer followed by nothing yields no port.
   */
  lemma BlankPortRejectedAsWritten(rest: seq<string>)
    ensures ReadPortAsWritten([""] + rest) == ReadPortAsWritten(rest)
    ensures ReadPortAsWritten([""]) == None
  {
    assert !PyIntParses("");
    assert ([""] + rest)[1..] == rest;
  }

  /** The default port "22" is itself a valid integer. */
  lemma DefaultPortParses()
    ensures PyIntParses("22")
  {
    var s := "22";
    assert !IsPySpace(s[0]) && !IsPySpace(s[1]);
    assert TrimStart(s) == s;
    assert TrimEnd(s) == s;
    assert DigitRun(s[1..]);
    assert DigitRun(s);
  }

  /** The corrected loop's exit test: a blank line, or one `int()` accepts. */
  predicate PortAccepted(line: string)
  {
    line == "" || PyIntParses(line)
  }

  /** Index of the first line the corrected port loop accepts, or |lines|. */
  function PortIndex(lines: seq<string>): (k: nat)
    ensures k <= |lines|
    ensures forall j :: 0 <= j < k ==> !PortAccepted(lines[j])
    ensures k < |lines| ==> PortAccepted(lines[k])
  {
    if |lines| == 0 then 0
    else if PortAccepted(lines[0]) then 0
    else 1 + PortIndex(lines[1..])
  }

  /** The port loop with the evident intent: blank means "22". */
  function ReadPort(lines: seq<string>): (r: Option<string>)
    ensures r.Some? ==> PyIntParses(r.value)
    ensures r.None? <==> forall j :: 0 <= j < |lines| ==> lines[j] != "" && !PyIntParses(lines[j])
    ensures r.Some? ==> PortIndex(lines) < |lines|
    ensures r.Some? ==> r.value == (if lines[PortIndex(lines)] == "" then "22" else lines[PortIndex(lines)])
  {
    var k := PortIndex(lines);
    if k == |lines| then None
    else if lines[k] == "" then
      DefaultPortParses();
      Some("22")
    else Some(lines[k])
  }

  /** With the correction a blank answer selects the default port at once. */
  lemma BlankPortDefaults(rest: seq<string>)
    ensures ReadPort([""] + rest) == Some("22")
  {
  }

  /** The correction changes nothing for an operator who never answers blank. */
  lemma {:induction false} ReadPortAgreesWithoutBlank(lines: seq<string>)
    requires forall j :: 0 <= j < |lines| ==> lines[j] != ""
    ensures ReadPort(lines) == ReadPortAsWritten(lines)
  {
    if |lines| > 0 && !PyIntParses(lines[0]) {
      ReadPortAgreesWithoutBlank(lines[1..]);
      assert PortIndex(lines) == 1 + PortIndex(lines[1..]);
    }
  }

  // ---------------------------------------------------------------------------
  // get_inputs (prepostchecker.py:25-61)
  // ---------------------------------------------------------------------------

  datatype Answers = Answers(username: string, password: string, port: string, mode: string)

  /**
   The operator's answers as the code reads them from one stream of typed lines:
   the username, then port lines until one parses as an integer, then run-mode
   lines until one is accepted. The password is read from the terminal
   separately. A blank port line is rejected like any other non-integer.
   */
  function GetInputs(lines: seq<string>, password: string): (r: Option<Answers>)
    ensures r.Some? ==> |lines| > 0 && r.value.username == lines[0] && r.value.password == password
    ensures r.Some? ==> ReadPortAsWritten(lines[1..]) == Some(r.value.port)
    ensures r.Some? ==> ReadRunMode(lines[ParseIndex(lines[1..]) + 2..]) == Some(r.value.mode)
    ensures r.Some? ==> PyIntParses(r.value.port) && (r.value.mode == "Pre" || r.value.mode == "Post")
    ensures r.None? <==>
      || |lines| == 0
      || ReadPortAsWritten(lines[1..]).None?
      || ReadRunMode(lines[ParseIndex(lines[1..]) + 2..]).None?
  {
    if |lines| == 0 then None
    else
      var rest := lines[1..];
      match ReadPortAsWritten(rest)
      case None => None
      case Some(port) =>
        var k := ParseIndex(rest);
        assert rest[k + 1..] == lines[k + 2..];
        match ReadRunMode(rest[k + 1..])
        case None => None
        case Some(mode) => Some(Answers(lines[0], password, port, mode))
  }

  /**
   The same stream read with the corrected port loop: a blank port line selects
   "22" and ends the port prompt.
   */
  function GetInputsCorrected(lines: seq<string>, password: string): (r: Option<Answers>)
    ensures r.Some? ==> |lines| > 0 && r.value.username == lines[0] && r.value.password == password
    ensures r.Some? ==> ReadPort(lines[1..]) == Some(r.value.port)
    ensures r.Some? ==> ReadRunMode(lines[PortIndex(lines[1..]) + 2..]) == Some(r.value.mode)
    ensures r.Some? ==> PyIntParses(r.value.port) && (r.value.mode == "Pre" || r.value.mode == "Post")
    ensures r.None? <==>
      || |lines| == 0
      || ReadPort(lines[1..]).None?
      || ReadRunMode(lines[PortIndex(lines[1..]) + 2..]).None?
  {
    if |lines| == 0 then None
    else
      var rest := lines[1..];
      match ReadPort(rest)
      case None => None
      case Some(port) =>
        var k := PortIndex(rest);
        assert rest[k + 1..] == lines[k + 2..];
        match ReadRunMode(rest[k + 1..])
        case None => None
        case Some(mode) => Some(Answers(lines[0], password, port, mode))
  }

  /** Without a blank line the two loops stop at the same line. */
  lemma {:induction false} IndicesAgreeWithoutBlank(lines: seq<string>)
    requires forall j :: 0 <= j < |lines| ==> lines[j] != ""
    ensures PortIndex(lines) == ParseIndex(lines)
  {
    if |lines| > 0 && !PyIntParses(lines[0]) {
      IndicesAgreeWithoutBlank(lines[1..]);
    }
  }

  /** The correction changes no answer of an operator who never leaves a line blank. */
  lemma GetInputsAgreeWithoutBlank(lines: seq<string>, password: string)
    requires forall j :: 1 <= j < |lines| ==> lines[j] != ""
    ensures GetInputsCorrected(lines, password) == GetInputs(lines, password)
  {
    if |lines| > 0 {
      var rest := lines[1..];
      assert forall j :: 0 <= j < |rest| ==> rest[j] == lines[j + 1];
      IndicesAgreeWithoutBlank(rest);
      ReadPortAgreesWithoutBlank(rest);
      var r1, r2 := GetInputsCorrected(lines, password), GetInputs(lines, password);
      assert r1.None? == r2.None?;
      if r1.Some? {
        assert r1.value.port == r2.value.port && r1.value.mode == r2.value.mode;
      }
    }
  }

  /** The lines of the blank-port examples, classified. */
  lemma NumberLine()
    ensures PyIntParses("2222")
  {
    var s := "2222";
    assert !IsPySpace(s[0]) && !IsPySpace(s[3]);
    assert TrimStart(s) == s && TrimEnd(s) == s;
    assert DigitRun(s[3..]) && DigitRun(s[2..]) && DigitRun(s[1..]) && DigitRun(s);
  }

  lemma WordLines()
    ensures !PyIntParses("pre") && !PyIntParses("")
  {
    assert forall i :: 0 <= i < |"pre"| ==> !IsDigit("pre"[i]);
  }

  lemma PreLine()
    ensures ReadRunMode(["pre"]) == Some("Pre")
  {
    RunModeAcceptedIff("pre");
    assert Lower("pre") == "pre";
    assert FirstAccepted(["pre"]) == 0;
  }

  /**
   A blank port answer as written: the port prompt repeats and the next integer
   line is kept, never the default.
   */
  lemma BlankPortThenNumber(password: string)
    ensures GetInputs(["u", "", "2222", "pre"], password) == Some(Answers("u", password, "2222", "Pre"))
  {
    var lines := ["u", "", "2222", "pre"];
    var rest := ["", "2222", "pre"];
    assert lines[1..] == rest && lines[3..] == ["pre"];
    assert ReadPortAsWritten(rest) == Some("2222") && ParseIndex(rest) == 1 by {
      NumberLine();
      WordLines();
      assert rest[1..] == ["2222", "pre"];
    }
    assert ReadRunMode(["pre"]) == Some("Pre") by { PreLine(); }
  }

  /** A port line over the digit limit is refused like a word, and the next line is kept. */
  lemma LongPortLineSkipped(password: string)
    ensures GetInputs(["u", seq(MaxStrDigits + 1, _ => '1'), "22", "pre"], password)
         == Some(Answers("u", password, "22", "Pre"))
  {
    var long := seq(MaxStrDigits + 1, _ => '1');
    var lines := ["u", long, "22", "pre"];
    var rest := [long, "22", "pre"];
    assert lines[1..] == rest && lines[3..] == ["pre"];
    assert ReadPortAsWritten(rest) == Some("22") && ParseIndex(rest) == 1 by {
      LongDigitRunRejected();
      DefaultPortParses();
      assert rest[1..] == ["22", "pre"];
    }
    assert ReadRunMode(["pre"]) == Some("Pre") by { PreLine(); }
  }

  /** A blank answer as the last port line: the code never leaves the port prompt. */
  lemma BlankPortLast(password: string)
    ensures GetInputs(["u", "", "pre"], password) == None
  {
    var rest := ["", "pre"];
    assert ["u", "", "pre"][1..] == rest;
    assert ReadPortAsWritten(rest) == None by {
      WordLines();
      assert rest[1..] == ["pre"] && rest[1..][1..] == [];
    }
  }

  /** The same lines with the corrected loop: "22" is taken and the run mode read. */
  lemma BlankPortLastCorrected(password: string)
    ensures GetInputsCorrected(["u", "", "pre"], password) == Some(Answers("u", password, "22", "Pre"))
  {
    var lines := ["u", "", "pre"];
    var rest := ["", "pre"];
    assert lines[1..] == rest && lines[2..] == ["pre"];
    assert ReadPort(rest) == Some("22") && PortIndex(rest) == 0 by {
      assert rest == [""] + ["pre"];
      BlankPortDefaults(["pre"]);
    }
    assert ReadRunMode(["pre"]) == Some("Pre") by { PreLine(); }
    var r := GetInputsCorrected(lines, password);
    assert r.Some?;
    assert r.value.port == "22" && r.value.mode == "Pre";
  }
}

=== FILE: naming.dfy ===
/**
 Artifact names and paths (prepostchecker.py:101-104, 123-125):
   log    `<hostname>_<prepost>CheckLogs-<stamp>.txt`
   backup `<hostname>_BackupConfig-<stamp>.cfg`
 both joined onto `<cwd>` and `Logs/<prepost>` with POSIX `os.path.join`.
 */
module Naming {
  import opened Options
  import opened Timestamp

  /**
   The log file name: the hostname, the run-mode tag, then the minute (which
   can be read back) and the ".txt" extension.
   */
  function LogName(hostname: string, mode: string, t: Stamp): (n: string)
    ensures |n| >= |hostname| + 17 && n[..|hostname|] == hostname
    ensures n[|hostname|..|n| - 17] == "_" + mode + "CheckLogs-"
    ensures n[|n| - 4..] == ".txt"
    ensures Parse(n[|n| - 17..|n| - 4]) == Some(t)
  {
    var tag := "_" + mode + "CheckLogs-";
    var n := hostname + tag + Format(t) + ".txt";
    assert n == hostname + "_" + mode + "CheckLogs-" + Format(t) + ".txt";
    assert n[|hostname|..|n| - 17] == tag;
    assert n[|n| - 17..|n| - 4] == Format(t);
    n
  }

  /**
   The backup file name: the hostname, the "_BackupConfig-" tag, then the
   minute (which can be read back) and the ".cfg" extension.
   */
  function BackupName(hostname: string, t: Stamp): (n: string)
    ensures |n| >= |hostname| + 17 && n[..|hostname|] == hostname
    ensures n[|hostname|..|n| - 17] == "_BackupConfig-"
    ensures n[|n| - 4..] == ".cfg"
    ensures Parse(n[|n| - 17..|n| - 4]) == Some(t)
  {
    var n := hostname + "_BackupConfig-" + Format(t) + ".cfg";
    assert n[|n| - 17..|n| - 4] == Format(t);
    n
  }

  /**
   posixpath.join(a, b): an absolute `b` replaces `a`; otherwise a separator
   is inserted unless `a` is empty or already ends with one.
   */
  function Join(a: string, b: string): (r: string)
    ensures |b| > 0 ==> |r| >= |b| && r[|r| - |b|..] == b
  {
    if |b| > 0 && b[0] == '/' then b
    else if a == "" || a[|a| - 1] == '/' then a + b
    else a + "/" + b
  }

  /** The run-mode directory `Logs/<mode>` joined onto the working directory. */
  function ModeDir(cwd: string, mode: string): string
  {
    Join(cwd, "Logs/" + mode)
  }

  /** The log path ends with the log file name, whatever the directory. */
  function LogPath(cwd: string, mode: string, hostname: string, t: Stamp): (p: string)
    ensures |p| >= |LogName(hostname, mode, t)|
    ensures p[|p| - |LogName(hostname, mode, t)|..] == LogName(hostname, mode, t)
  {
    Join(ModeDir(cwd, mode), LogName(hostname, mode, t))
  }

  /** The backup path ends with the backup file name, whatever the directory. */
  function BackupPath(cwd: string, mode: string, hostname: string, t: Stamp): (p: string)
    ensures |p| >= |BackupName(hostname, t)|
    ensures p[|p| - |BackupName(hostname, t)|..] == BackupName(hostname, t)
  {
    Join(ModeDir(cwd, mode), BackupName(hostname, t))
  }

  predicate ValidMode(mode: string)
  {
    mode == "Pre" || mode == "Post"
  }

  /** A hostname that os.path.join would treat as an absolute path. */
  predicate Absolute(hostname: string)
  {
    |hostname| > 0 && hostname[0] == '/'
  }

  /**
   Where the two artifacts land: in `<cwd>/Logs/<mode>/` unless the hostname
   begins with '/', in which case os.path.join discards the directory and the
   file name alone is the path.
   */
  lemma ArtifactLocation(cwd: string, mode: string, hostname: string, t1: Stamp, t2: Stamp)
    requires ValidMode(mode)
    ensures !Absolute(hostname) ==> LogPath(cwd, mode, hostname, t1) == ModeDir(cwd, mode) + "/" + LogName(hostname, mode, t1)
    ensures !Absolute(hostname) ==> BackupPath(cwd, mode, hostname, t2) == ModeDir(cwd, mode) + "/" + BackupName(hostname, t2)
    ensures Absolute(hostname) ==> LogPath(cwd, mode, hostname, t1) == LogName(hostname, mode, t1)
    ensures Absolute(hostname) ==> BackupPath(cwd, mode, hostname, t2) == BackupName(hostname, t2)
    ensures ModeDir(cwd, mode)[|ModeDir(cwd, mode)| - |"Logs/" + mode|..] == "Logs/" + mode
    ensures ModeDir(cwd, mode) == (if cwd == "" || cwd[|cwd| - 1] == '/' then cwd else cwd + "/") + "Logs/" + mode
  {
    ModeDirUnderCwd(cwd, mode);
    NamesAbsolute(hostname, mode, t1, t2);
  }

  /**
   The run-mode directory is `Logs/<mode>` under the working directory, and
   for a valid mode it does not end with a separator.
   */
  lemma ModeDirUnderCwd(cwd: string, mode: string)
    requires ValidMode(mode)
    ensures ModeDir(cwd, mode) == (if cwd == "" || cwd[|cwd| - 1] == '/' then cwd else cwd + "/") + "Logs/" + mode
    ensures ModeDir(cwd, mode)[|ModeDir(cwd, mode)| - 1] != '/'
  {
    var d := ModeDir(cwd, mode);
    assert d[|d| - 1] == mode[|mode| - 1];
  }

  /** A file name is absolute exactly when the hostname it starts with is. */
  lemma NamesAbsolute(hostname: string, mode: string, t1: Stamp, t2: Stamp)
    ensures Absolute(LogName(hostname, mode, t1)) <==> Absolute(hostname)
    ensures Absolute(BackupName(hostname, t2)) <==> Absolute(hostname)
  {
    assert LogName(hostname, mode, t1)[0] == (if |hostname| > 0 then hostname[0] else '_');
    assert BackupName(hostname, t2)[0] == (if |hostname| > 0 then hostname[0] else '_');
  }

  /** The log name determines the hostname and the minute it was taken in. */
  lemma LogNameInjective(h1: string, h2: string, mode: string, t1: Stamp, t2: Stamp)
    ensures LogName(h1, mode, t1) == LogName(h2, mode, t2) <==> h1 == h2 && t1 == t2
  {
    if LogName(h1, mode, t1) == LogName(h2, mode, t2) {
      var n1, n2 := LogName(h1, mode, t1), LogName(h2, mode, t2);
      assert |h1| == |h2|;
      assert h1 == n1[..|h1|] == n2[..|h2|] == h2;
      var k := |h1| + |mode| + 11;
      assert Format(t1) == n1[k..k + 13] == n2[k..k + 13] == Format(t2);
      FormatInjective(t1, t2);
    }
  }

  /** The backup name determines the hostname and the minute it was taken in. */
  lemma BackupNameInjective(h1: string, h2: string, t1: Stamp, t2: Stamp)
    ensures BackupName(h1, t1) == BackupName(h2, t2) <==> h1 == h2 && t1 == t2
  {
    if BackupName(h1, t1) == BackupName(h2, t2) {
      var n1, n2 := BackupName(h1, t1), BackupName(h2, t2);
      assert |h1| == |h2|;
      assert h1 == n1[..|h1|] == n2[..|h2|] == h2;
      var k := |h1| + 14;
      assert Format(t1) == n1[k..k + 13] == n2[k..k + 13] == Format(t2);
      FormatInjective(t1, t2);
    }
  }

  /**
   A device's log and backup never share a path, whatever the hostname,
   mode and clock readings: one ends in ".txt", the other in ".cfg".
   */
  lemma LogAndBackupDistinct(cwd: string, mode: string, h1: string, h2: string, t1: Stamp, t2: Stamp)
    ensures LogPath(cwd, mode, h1, t1) != BackupPath(cwd, mode, h2, t2)
  {
    var p, q := LogPath(cwd, mode, h1, t1), BackupPath(cwd, mode, h2, t2);
    var a, b := LogName(h1, mode, t1), BackupName(h2, t2);
    assert p[|p| - 1] == a[|a| - 1] == 't';
    assert q[|q| - 1] == b[|b| - 1] == 'g';
  }

  /** Same hostname, mode and minute give the same paths; different ones never do. */
  lemma PathsDeterminedByHostAndMinute(cwd: string, mode: string, h1: string, h2: string, t1: Stamp, t2: Stamp)
    requires ValidMode(mode)
    requires !Absolute(h1) && !Absolute(h2)
    ensures LogPath(cwd, mode, h1, t1) == LogPath(cwd, mode, h2, t2) <==> h1 == h2 && t1 == t2
    ensures BackupPath(cwd, mode, h1, t1) == BackupPath(cwd, mode, h2, t2) <==> h1 == h2 && t1 == t2
  {
    ArtifactLocation(cwd, mode, h1, t1, t1);
    ArtifactLocation(cwd, mode, h2, t2, t2);
    var d := ModeDir(cwd, mode) + "/";
    LogNameInjective(h1, h2, mode, t1, t2);
    BackupNameInjective(h1, h2, t1, t2);
    if LogPath(cwd, mode, h1, t1) == LogPath(cwd, mode, h2, t2) {
      assert LogName(h1, mode, t1) == (d + LogName(h1, mode, t1))[|d|..] == (d + LogName(h2, mode, t2))[|d|..] == LogName(h2, mode, t2);
    }
    if BackupPath(cwd, mode, h1, t1) == BackupPath(cwd, mode, h2, t2) {
      assert BackupName(h1, t1) == (d + BackupName(h1, t1))[|d|..] == (d + BackupName(h2, t2))[|d|..] == BackupName(h2, t2);
    }
  }
}

=== FILE: options.dfy ===
/** The optional-value datatype shared by the other modules. */
module Options {

  datatype Option<+T> = None | Some(value: T)
}

=== FILE: timestamp.dfy ===
/**
 The minute stamp (strftime format %m%d%Y-%H%M of the current time) embedded in both artifact
 file names (prepostchecker.py:101, 123). The clock reading itself is an input;
 only the fields the format uses are kept.
 */
module Timestamp {
  import opened Options
  import opened Chars

  datatype DateTime = DateTime(year: int, month: int, day: int, hour: int, minute: int)
  {
    /** The range of a wall-clock reading whose %Y has four digits. */
    predicate Valid()
    {
      && 1000 <= year <= 9999
      && 1 <= month <= 12
      && 1 <= day <= 31
      && 0 <= hour <= 23
      && 0 <= minute <= 59
    }
  }

  /** One reading of the clock. */
  type Stamp = t: DateTime | t.Valid() witness DateTime(2000, 1, 1, 0, 0)

  function Digit(n: int): (c: char)
    requires 0 <= n <= 9
    ensures IsDigit(c)
  {
    ('0' as int + n) as char
  }

  function DigitValue(c: char): int
  {
    c as int - '0' as int
  }

  /** A zero-padded two-digit field: %m, %d, %H, %M. */
  function Pad2(n: int): (s: string)
    requires 0 <= n <= 99
  {
    [Digit(n / 10), Digit(n % 10)]
  }

  /** A four-digit field: %Y. */
  function Pad4(n: int): (s: string)
    requires 0 <= n <= 9999
  {
    [Digit(n / 1000), Digit(n / 100 % 10), Digit(n / 10 % 10), Digit(n % 10)]
  }

  function Value2(s: string): int
    requires |s| == 2
  {
    10 * DigitValue(s[0]) + DigitValue(s[1])
  }

  function Value4(s: string): int
    requires |s| == 4
  {
    1000 * DigitValue(s[0]) + 100 * DigitValue(s[1]) + 10 * DigitValue(s[2]) + DigitValue(s[3])
  }

  lemma Pad2Value(n: int)
    requires 0 <= n <= 99
    ensures Value2(Pad2(n)) == n
  {
  }

  lemma Pad4Value(n: int)
    requires 0 <= n <= 9999
    ensures Value4(Pad4(n)) == n
  {
    var a, b, c, d := n / 1000, n / 100 % 10, n / 10 % 10, n % 10;
    assert n / 100 == 10 * a + b;
    assert n / 10 == 10 * (n / 100) + c;
    assert n == 10 * (n / 10) + d;
  }

  /** Shape of a formatted stamp: MMDDYYYY-HHMM. */
  predicate WellShaped(s: string)
  {
    && |s| == 13
    && s[8] == '-'
    && forall i :: 0 <= i < 13 && i != 8 ==> IsDigit(s[i])
  }

  /** The stamp as strftime('%m%d%Y-%H%M') renders it. */
  function Format(t: Stamp): (s: string)
    ensures WellShaped(s)
    ensures Parse(s) == Some(t)
  {
    var s := Pad2(t.month) + Pad2(t.day) + Pad4(t.year) + "-" + Pad2(t.hour) + Pad2(t.minute);
    assert s[0..2] == Pad2(t.month) && s[2..4] == Pad2(t.day) && s[4..8] == Pad4(t.year);
    assert s[9..11] == Pad2(t.hour) && s[11..13] == Pad2(t.minute);
    Pad2Value(t.month);
    Pad2Value(t.day);
    Pad4Value(t.year);
    Pad2Value(t.hour);
    Pad2Value(t.minute);
    s
  }

  /** Reads a stamp back from its text; the inverse of Format. */
  function Parse(s: string): (r: Option<Stamp>)
    ensures r.Some? ==> WellShaped(s)
  {
    if !WellShaped(s) then None
    else
      var t := DateTime(Value4(s[4..8]), Value2(s[0..2]), Value2(s[2..4]), Value2(s[9..11]), Value2(s[11..13]));
      if t.Valid() then Some(t) else None
  }

  /** Two readings render alike exactly when they name the same minute. */
  lemma FormatInjective(t1: Stamp, t2: Stamp)
    ensures Format(t1) == Format(t2) <==> t1 == t2
  {
    if Format(t1) == Format(t2) {
      assert Parse(Format(t1)) == Some(t1);
      assert Parse(Format(t2)) == Some(t2);
    }
  }
}
